=== FILE: README.md ===
# whynotavailable/proxy: the request pipeline, in Dafny

This project models the request-transformation and dispatch logic of the Go
reverse-proxy library `whynotavailable/proxy`, and proves properties of it.

- **`Proxy`** (`proxy.go`, module `ProxyHandler`). `BuildProxy` validates a
  configuration. It synthesises a router from `TargetHost` and
  `ReplacementPath`, and returns a handler. The handler runs `ValidateRequest`
  and the router. It copies the request headers through the optional
  whitelist and the fixed hop-by-hop blacklist of section 13.5.1 of RFC 2616.
  It adds the client identity (`X-Forwarded-For`, or `Forwarded: For=…` in the
  style of section 6 of RFC 7239), runs `PreRequest`, calls the upstream, and
  relays headers, status and body. `Apply` copies policy fields from one
  `Proxy` to another.
- **`Overlord`** (`overlord.go`, module `Overlord`). It runs the global
  validators in order, then dispatches to the cached proxy whose mount path is
  the longest prefix of the request URI, and otherwise writes a 404.
  `buildProxyCache` fills the cache.
- **Header helpers** (`proxy/utils.go`, module `HeaderUtils`): `isHeaderBad`,
  `CopyHeaders` and the empty `copyWhitelist`.
- **`Forwarder`** (`forwarder.go`, module `Forwarder`): the older forwarder.
  It forwards the first value of whitelisted request headers and lets
  `ExtraHeaders` override them. It relays the first value of non-hop-by-hop
  response headers.

Supporting modules:
- `Text` models `strings.Index` and `strings.Replace(…, 1)`.
- `Http` models the parts of `net/http` the code uses: `http.Header` as
  `map<string, seq<string>>` with `Add` and `Get`, and the requests. The
  `Header.Set` loops of forwarder.go are written as whole-map updates in
  `Forwarder`, each key ending with the one value set.
- `Http` also models the response writer. The first status written is the one
  sent; informational 1xx codes are not treated apart (see "## Left out"). Header changes after that are not sent. Every write appends to the body;
  the limits Go puts on a body (see "## Left out") are not modelled.
  `http.Error` writes the status and then the message with a newline.
- `Scenarios` ties the three copies of the hop-by-hop list together. It also
  restates the repository's tests on the model.

Collaborators become values:
- `Router`, `ValidateRequest`, `PreRequest` and the global validators are
  function values.
- `PreRequest` returns either the outbound request it may have changed, or a
  veto.
- The HTTP client is a `Transport` oracle from the outbound request to an
  upstream answer or an error text.
- A handler returns an `Exchange`: what the client received, and the outbound
  request handed to the transport, if one was.

Go's map iteration order is arbitrary. Where the result could depend on it, a
method visits the keys in an arbitrary order. It is proved to equal an
order-free reference definition:
- `Http.CopyLoop` equals `Http.CopyWhere` (header copies);
- `Overlord.SelectRoute` equals `Overlord.LongestMatch` (route selection).

The model follows the code in these places:
- `Apply` overwrites the receiver's whitelist and hooks with every non-nil
  field of `from`. It always copies `UseXForwardedFor`. It is not a merge in
  which the receiver's own values win.
- The client address is quoted when it contains `:` in both identity modes,
  `X-Forwarded-For` included. The header is added after any forwarded values,
  not set.
- Routing ties cannot occur. Two keys of the same length that both prefix the
  URI are the same key (`Overlord.MatchIsUnique`). So the selection does not
  depend on iteration order.
- A rejected `ValidateRequest` does not stop the handler, although the comment
  at proxy.go:19 says validation runs "before any outbound request building
  happens". `ServeHTTP` writes "Not Found" after delegating. Both are modelled
  as written, and also in corrected form (see Findings).

## Model

| member | source | states |
|---|---|---|
| `Text.IndexOf` | overlord.go:32 | The result is the least index at which the substring occurs; `None` (Go's -1) exactly when it occurs nowhere |
| `Text.IndexZeroIffPrefix` | overlord.go:32 | `strings.Index(uri, key) == 0` holds exactly when `key` is a prefix of `uri` |
| `Text.ReplaceFirst` | proxy.go:65 | Only the first occurrence is replaced: the text before it and after it is kept, and a string without an occurrence is unchanged |
| `Text.ReplaceFirstPrefix` | proxy.go:65 | When the pattern is a prefix of the string, the result is the replacement followed by the rest of the string |
| `Text.ReplaceFirstAbsent` | proxy.go:65 | A string in which the pattern does not occur is returned unchanged |
| `Http.AddEach` | proxy.go:95-97 | Adding each value of a list appends all of them in order under the key; an empty list creates no key; other keys keep their values |
| `Http.CopyWhere` | proxy.go:93-98 | After the filtered copy, each key has its destination values followed by its source values if it is kept; a key is present iff it was in the destination or is kept with at least one source value |
| `Http.CopyLoop` | proxy/utils.go:27-33 | The per-key `Add` loop over the source map gives `CopyWhere` in whatever order the keys are visited |
| `HeaderUtils.ScanFrom` | proxy/utils.go:17-22 | The linear scan returns true iff an entry of the list at or after the start position equals the header |
| `HeaderUtils.IsHeaderBad` | proxy/utils.go:5-23 | True exactly for the eight hop-by-hop names |
| `HeaderUtils.IsHeaderBadCaseSensitive` | proxy/utils.go:18 | The comparison is case-sensitive: `connection` and `TE` are not recognised |
| `HeaderUtils.CopyHeaders` | proxy/utils.go:26-34 | Every non-hop-by-hop source key has its values appended after the destination's; hop-by-hop keys and keys absent from the source keep their destination values |
| `HeaderUtils.CopyWhitelist` | proxy/utils.go:36-38 | The empty stub leaves the destination headers as they were |
| `ProxyHandler.HopByHopMapAgrees` | proxy.go:44-53 | A lookup in `hopByHopHeaders` is true exactly for the RFC 2616 hop-by-hop set |
| `ProxyHandler.ValidateProxy` | proxy.go:184-194 | Validation fails iff `Path` is empty or neither `Router` nor `TargetHost` is set; a missing router is reported first |
| `ProxyHandler.Build` | proxy.go:32-59 | A handler is produced iff validation passes, otherwise the validation error; the handler keeps the configuration and a whitelist set containing exactly the listed names (none for a nil list) |
| `ProxyHandler.BuiltRouter` | proxy.go:61-70 | With `TargetHost` set, the router returns `TargetHost` plus the request URI, rewritten only when `ReplacementPath` is set, and overrides a custom `Router`; otherwise it is the custom `Router` |
| `ProxyHandler.RewriteMountPrefix` | proxy.go:64-66 | When `ReplacementPath` is non-empty, a request URI that starts with `Path` has that prefix replaced by `ReplacementPath` (with an empty one the URI is kept, see `ProxyHandler.BuiltRouter`) |
| `ProxyHandler.RewriteWithoutOccurrence` | proxy.go:64-66 | A request URI in which `Path` does not occur is forwarded unchanged |
| `ProxyHandler.RequestHeaderFilter` | proxy.go:91-109 | A request header is forwarded iff it is not hop-by-hop and the whitelist is nil or lists it, with all values in order; a non-nil empty whitelist forwards nothing |
| `ProxyHandler.ClientIdentity` | proxy.go:111-115 | An address containing `:` is wrapped in double quotes; any other address is used as it is |
| `ProxyHandler.WithClientIdentity` | proxy.go:117-121 | The identity is appended after the existing values of `X-Forwarded-For` when `UseXForwardedFor` is set, and of `Forwarded` as `For=<identity>` otherwise; other headers are unchanged |
| `ProxyHandler.OutboundForwardsFiltered` | proxy.go:89-109 | Apart from the identity header, the outbound request carries exactly the forwardable inbound headers, each with all its values in order |
| `ProxyHandler.OutboundIdentityLast` | proxy.go:111-121 | The identity value comes last under its header, after any forwardable inbound values of that header |
| `ProxyHandler.OutboundWithoutHopByHop` | proxy.go:89-121 | No hop-by-hop header is present on the outbound request, whatever the inbound request and the whitelist hold |
| `ProxyHandler.ResponseHeaders` | proxy.go:141-147 | Every upstream header except the hop-by-hop ones is added with all its values, with no whitelist; hop-by-hop keys keep the writer's values |
| `ProxyHandler.Handle` | proxy.go:72-152 | The handler always writes a status. On a fresh writer it is, in stage order, the `ValidateRequest` code, 400 for a router error, the `PreRequest` status, 500 for a transport error, or the upstream status. The upstream gets the request the steps after validation build, whatever validation said, and none after a router error or veto. The body is the error text and a newline after a router error, a veto or a transport error, and the upstream body when relayed; after a validation failure the validation text heads it |
| `ProxyHandler.Routed` | proxy.go:81-151 | From routing on, a router error answers 400 with the error text and a newline, and sends nothing; otherwise the pre-request and transport steps decide, with their status, body and sent request. A status already written stands, and what was written before stays at the head of the body |
| `ProxyHandler.Vetted` | proxy.go:123-151 | A `PreRequest` veto answers with the hook's own status and its message and a newline, and sends nothing; otherwise the request the hook returns is sent. A status already written stands |
| `ProxyHandler.Sent` | proxy.go:132-151 | The request is always handed to the transport. A transport error answers 500 with the error text and a newline; otherwise the upstream status and body. A status already written stands |
| `ProxyHandler.Relay` | proxy.go:141-151 | Relaying writes the upstream status unless one was already written, and appends the upstream body |
| `ProxyHandler.HandleCorrected` | proxy.go:73-151 | With the missing `return` restored, a rejected validation sends nothing and the body is the error text. Status, body and sent request follow the stage order in every case |
| `ProxyHandler.ValidationRejectStillForwards` | proxy.go:73-151 | As written, when validation rejects but the later steps would relay an answer, the request is still sent upstream. The client gets the validation code, and the error text followed by the upstream body. The corrected handler sends nothing |
| `ProxyHandler.FallThroughKeepsStatus` | proxy.go:76-78 | On a fresh writer, the status written as written equals the corrected status: the first status written stands |
| `ProxyHandler.RelayedResponse` | proxy.go:139-151 | When the upstream answers, the client gets its status, its body, and every non-hop-by-hop header with all values |
| `ProxyHandler.SentWithoutHopByHop` | proxy.go:89-132 | Without a `PreRequest` hook, the request sent upstream has no hop-by-hop header |
| `ProxyHandler.Apply` | proxy.go:168-182 | Each non-nil whitelist or hook of `from` replaces the receiver's, and a nil one leaves it. `UseXForwardedFor` always comes from `from`. `Path`, `Router`, `TargetHost` and `ReplacementPath` are untouched |
| `ProxyHandler.ApplyIdempotent` | proxy.go:168-182 | Applying the same settings twice equals applying them once |
| `ProxyHandler.ApplyKeepsValidity` | proxy.go:168-194 | `Apply` never changes the outcome of `validateProxy` |
| `Overlord.RunValidators` | overlord.go:21-27 | The verdict accepts iff every global validator accepts. A rejection is the verdict of the first rejecting validator in order, all before it having accepted |
| `Overlord.LongestUpTo` | overlord.go:29-37 | The result is "" or a key that prefixes the URI and is no longer than the bound. Every key that prefixes the URI within the bound is no longer than it |
| `Overlord.LongestMatch` | overlord.go:29-37 | The selected route is "" or a cache key prefixing the request URI, query included, and no key prefixing the URI is longer |
| `Overlord.MatchIsUnique` | overlord.go:31-37 | Any non-empty key that prefixes the URI with maximal length is the selected route, so the selection does not depend on iteration order |
| `Overlord.SelectRoute` | overlord.go:29-37 | The selection loop over the cache keys, in any order, returns `LongestMatch` |
| `Overlord.CacheFrom` | overlord.go:46-55 | A key is added iff some proxy with that path builds. No empty key is added. Entries for paths no proxy declares stay |
| `Overlord.CacheLastWins` | overlord.go:47-53 | A path's entry is the handler of the last proxy with that path that builds: later failing proxies do not remove it |
| `Overlord.BuildProxyCache` | overlord.go:46-55 | Building the cache keeps proxies and validators and adds exactly the paths of the proxies that build |
| `Overlord.CacheFromEmpty` | overlord.go:46-55 | Starting from an empty cache, a path is a key iff some proxy with that path builds; every key is non-empty, and its entry is the built handler of the last proxy with that path that builds |
| `Overlord.Serve` | overlord.go:20-44 | A validator rejection writes its code and calls no handler. With no prefix match the answer is 404 "Not Found". After a delegation the delegate's status and request stand, and "Not Found" is appended to the body |
| `Overlord.FallThrough` | overlord.go:43 | The closing "Not Found" keeps any status already written, 404 otherwise, appends "Not Found\n" to the body, and adds no upstream request |
| `Overlord.ServeCorrected` | overlord.go:20-43 | With the `return` after delegation restored, a delegated request gets exactly the corrected handler's stage status and sent request, and exactly the delegate's body with nothing appended |
| `Overlord.DelegationAppendsNotFound` | overlord.go:39-43 | As written, when the delegate's own `ValidateRequest` accepts, a delegated request's body is the corrected body followed by "Not Found", and its status is the same |
| `Overlord.MostSpecificRouteWins` | overlord.go:31-37 | Of `/api/` and `/api/v2/`, a request for `/api/v2/x` selects `/api/v2/` |
| `Forwarder.WhitelistSet` | forwarder.go:16-20 | The whitelist set contains exactly the listed names; a nil list gives the empty set |
| `Forwarder.WhitelistedHeaders` | forwarder.go:40-44 | A request header is copied iff it is whitelisted, with no hop-by-hop check, and carries only its first value |
| `Forwarder.WithExtras` | forwarder.go:46-48 | Each extra header replaces any copied value with its own single value; other headers are untouched |
| `Forwarder.OutboundHeaderContents` | forwarder.go:38-48 | The outbound headers are exactly the extra headers plus the whitelisted inbound ones. Extras win. Copied ones keep only their first value. A nil whitelist forwards only the extras |
| `Forwarder.ResponseHeaders` | forwarder.go:57-61 | Every non-hop-by-hop upstream header is set to its first value only; hop-by-hop keys are not relayed |
| `Forwarder.Forward` | forwarder.go:33-66 | The upstream gets the inbound method and body, the getter's URL and the filtered headers. A transport error gives 500 with its text, and otherwise the client gets the upstream status and body |
| `Forwarder.ForwardedResponseHeaders` | forwarder.go:57-63 | On a fresh writer, the client gets exactly the non-hop-by-hop upstream headers, each with its first value |
| `Scenarios.HopByHopCopiesAgree` | proxy/utils.go:6-15 | `isHeaderBad`, `hopByHopHeaders` and the forwarder's `badHeaders` name the same eight headers |
| `Scenarios.BuildValidationCases` | proxy_test.go:80-103 | An empty proxy and a proxy with only `TargetHost` fail to build; `TargetHost` with a path builds |
| `Scenarios.TargetHostKeepsUri` | proxy.go:61-70 | `/api/` to `http://U` forwards `/api/widgets?x=1` as `http://U/api/widgets?x=1` |
| `Scenarios.ReplacementRewritesMount` | proxy.go:61-70 | `/api/payments/` with replacement `/api/` forwards `/api/payments/42` as `http://U/api/42` |
| `Scenarios.ForwardedQuotesPort` | proxy.go:111-121 | `10.0.0.5:443` gives `For="10.0.0.5:443"` |
| `Scenarios.ForwardedKeepsBareAddress` | proxy.go:111-121 | `10.0.0.5` gives `For=10.0.0.5` |
| `Scenarios.ForwardedForQuotesIPv6` | proxy.go:111-118 | Under `X-Forwarded-For`, `[::1]:80` gives `"[::1]:80"` |
| `Scenarios.RouterErrorIsBadRequest` | proxy_test.go:154-171 | A failing router gives 400 with its text and no upstream call |
| `Scenarios.TransportErrorIsServerError` | proxy_test.go:137-152 | A transport failure gives 500 after the request was handed over |
| `Scenarios.PreRequestVetoKeepsStatus` | proxy_test.go:105-135 | An applied `PreRequest` returning 503 gives 503 with no upstream call |
| `Scenarios.ValidationRejectKeepsStatus` | proxy_test.go:186-210 | An applied `ValidateRequest` returning 503 gives 503 |
| `Scenarios.WhitelistForwardsOnlyListed` | proxy_test.go:36-78 | With `Client` whitelisted through `Apply`, only `Client` is forwarded; `Upgrade` and `Too` are dropped |

## Left out

- The HTTP client, `http.NewRequest` and `io.Copy` are not modelled. The
  network call is the `Transport` oracle, and bodies are whole strings, not
  streams.
- The URL-parse error of `http.NewRequest` is ignored at proxy.go:89 and
  forwarder.go:38. In Go a malformed URI would leave a nil request and panic.
  The model always builds the request.
- Header-key canonicalisation in `http.Header` is not modelled. Every key,
  whitelist entry and extra header is taken to be canonical already.
- `http.Error` also sets `Content-Type` and `X-Content-Type-Options`. These
  headers are not modelled; only its status and body are.
- Go's `WriteHeader` panics for codes outside 100–999. The model accepts any
  hook status.
- 1xx hook codes are not modelled apart. From Go 1.19 on, `WriteHeader` with a
  1xx code other than 101 sends an informational response and commits nothing.
  The `Fprintln` inside `http.Error` then writes the body, and that write
  commits 200 before `http.Error` returns. So when `ValidateRequest`,
  `PreRequest` or a global validator returns, say, (err, 103), the client gets
  200 at whichever stage writes that code, and any later status is ignored.
  The model, through `StatusOf`, says 103, and every contract that names a
  hook's code as the client's status assumes a code outside 100–199. In older Go the 1xx status is committed and every body
  is refused.
- Response-body copy errors, client disconnects and the deferred
  `resp.Body.Close()` are not modelled.
- `Register`, `Takeover`, `http.HandleFunc` and `ListenAndServe` are not
  modelled. They are global mux registration and server start-up.
- `proxyCache` is never initialised in overlord.go, so the first insert in
  `buildProxyCache` would panic on a nil map. `Overlord.CacheFrom` starts from
  a given cache, normally the empty map, instead.
- `BuildProxy` assigns the synthesised router into the `Proxy` it is called
  on, and the handler reads the configuration through that receiver at request
  time. The model takes the configuration as fixed once built, because nothing
  in the core changes it afterwards.
- Hooks, routers and URL getters are pure functions in the model. Their own
  state is not modelled, for example the token caches of the example programs.
- Static file hosting, `proxy/forwarder.go` and the example programs are not
  part of this model. They are I/O and bootstrap code.
- Overlord.Serve: the writer model appends every write to the body. Go's
  `ResponseWriter` stops a body at a `Content-Length` already set when the
  status is written, and refuses bodies for 1xx, 204 and 304 statuses and for `HEAD`. proxy.go:141-147
  relays the upstream `Content-Length` (it is not hop-by-hop), so for such an
  answer the trailing "Not Found\n" of overlord.go:43 is refused rather than
  delivered. `Overlord.Serve` and `Overlord.DelegationAppendsNotFound` state
  the bytes written, not the bytes that reach the client in those cases.
- ProxyHandler.Handle: for a rejected validation its contract states the status,
  the request sent, and that the error text heads the body, but not the rest of
  the body. That is stated by `ProxyHandler.ValidationRejectStillForwards` under
  its preconditions.

## Findings

| source | as written | input that shows it | evidently intended | confidence | as-written member | corrected member |
|---|---|---|---|---|---|---|
| proxy.go:76-78 | A rejected `ValidateRequest` writes the error and does not return. The request is still routed, the `PreRequest` hook runs, and the request is sent upstream, with the upstream body appended after the error text | `ValidateRequest` returning (`Server Updating`, 503) on a proxy whose router and transport succeed: the client gets 503 but the upstream still receives the request | Stop after writing the validation error | not executed | `ProxyHandler.ValidationRejectStillForwards` | `ProxyHandler.HandleCorrected` |
| overlord.go:39-43 | After delegating to the selected proxy, `ServeHTTP` falls through and writes "Not Found" with 404. The 404 is ignored because a status was already written, but "Not Found\n" is written after the delegate's body | a request whose validators accept and whose URI has a cached mount path as prefix, answered by the delegate through `http.Error` (a router error, say) or by an upstream answer without `Content-Length`: the client's body ends in "Not Found\n" | Return after delegating | not executed | `Overlord.DelegationAppendsNotFound` | `Overlord.ServeCorrected` |

=== FILE: forwarder.dfy ===
/**
 * `forwarder.go`: the older single-function forwarder. It copies only the first
 * value of each whitelisted request header, with no hop-by-hop check, lets the
 * per-request extra headers override them, and relays the first value of every
 * non-hop-by-hop response header.
 */
module Forwarder {
  import opened Wrappers
  import opened Http

  /** `ForwarderOptions`: the upstream URL and headers to set on the outbound request. */
  datatype ForwarderOptions = ForwarderOptions(url: string, extraHeaders: map<string, string>)

  /** The `urlGetter` the caller supplies. */
  type UrlGetter = Request -> ForwarderOptions

  /** The `badHeaders` map built inside `Forwarder`. */
  const BadHeaders: map<string, bool> := map[
    "Connection" := true, "Keep-Alive" := true, "Proxy-Authenticate" := true,
    "Proxy-Authorization" := true, "Te" := true, "Trailers" := true,
    "Transfer-Encoding" := true, "Upgrade" := true
  ]

  /** `badHeaders[key]`: a Go map lookup, false for a missing key. */
  predicate IsBad(k: string) {
    k in BadHeaders && BadHeaders[k]
  }

  /** The `badHeaders` lookup is true exactly for the hop-by-hop set. */
  lemma BadIsHopByHop()
    ensures forall k :: IsBad(k) <==> k in HopByHop
  {
  }

  /** The whitelist map `Forwarder` fills from its argument; a nil slice gives the empty map. */
  function WhitelistSet(whitelist: seq<string>): (r: set<string>)
    ensures forall h :: h in r <==> h in whitelist
  {
    set i | 0 <= i < |whitelist| :: whitelist[i]
  }

  /** The request-header loop: `req.Header.Set(key, r.Header.Get(key))` for every whitelisted key. */
  function WhitelistedHeaders(inbound: Headers, wl: set<string>): (r: Headers)
    ensures forall k :: k in r <==> k in inbound && k in wl
    ensures forall k :: k in r ==> r[k] == [Get(inbound, k)]
  {
    map k | k in inbound.Keys && k in wl :: [Get(inbound, k)]
  }

  /** The extra-headers loop: `req.Header.Set(key, val)` for every extra header. */
  function WithExtras(h: Headers, extra: map<string, string>): (r: Headers)
    ensures forall k :: k in extra ==> Values(r, k) == [extra[k]]
    ensures forall k :: k !in extra ==> Values(r, k) == Values(h, k)
    ensures r.Keys == h.Keys + extra.Keys
  {
    h + map k | k in extra :: [extra[k]]
  }

  /** The headers of the outbound request. */
  function OutboundHeaders(inbound: Headers, whitelist: seq<string>, extra: map<string, string>): Headers {
    WithExtras(WhitelistedHeaders(inbound, WhitelistSet(whitelist)), extra)
  }

  /** A request header reaches the upstream exactly when it is whitelisted or an
      extra header; whitelisting alone forwards hop-by-hop names too, and only the
      first value of each is sent; an extra header replaces a copied one. */
  lemma OutboundHeaderContents(inbound: Headers, whitelist: seq<string>, extra: map<string, string>)
    ensures forall k :: k in OutboundHeaders(inbound, whitelist, extra) <==>
                          k in extra || (k in inbound && k in whitelist)
    ensures forall k :: k in extra ==> OutboundHeaders(inbound, whitelist, extra)[k] == [extra[k]]
    ensures forall k :: k !in extra && k in inbound && k in whitelist ==>
                          OutboundHeaders(inbound, whitelist, extra)[k] == [Get(inbound, k)]
    ensures whitelist == [] ==> OutboundHeaders(inbound, whitelist, extra).Keys == extra.Keys
  {
    var copied := WhitelistedHeaders(inbound, WhitelistSet(whitelist));
    var out := OutboundHeaders(inbound, whitelist, extra);
    forall k | k !in extra && k in inbound && k in whitelist
      ensures out[k] == [Get(inbound, k)]
    {
      assert k in copied;
      assert Values(out, k) == Values(copied, k);
    }
  }

  /** The response-header loop: `w.Header().Set(key, resp.Header.Get(key))` for every key not in `badHeaders`. */
  function ResponseHeaders(upstream: Headers, current: Headers): (r: Headers)
    ensures forall k :: k in upstream && k !in HopByHop ==> Values(r, k) == [Get(upstream, k)]
    ensures forall k :: k !in upstream || k in HopByHop ==> Values(r, k) == Values(current, k)
    ensures r.Keys == current.Keys + (upstream.Keys - HopByHop)
  {
    BadIsHopByHop();
    current + map k | k in upstream.Keys && !IsBad(k) :: [Get(upstream, k)]
  }

  /** The handler `Forwarder(urlGetter, whitelist)` returns. */
  function Forward(getter: UrlGetter, whitelist: seq<string>, r: Request, w: Writer, t: Transport): (e: Exchange)
    ensures e.sent == Some(Outbound(r.verb, getter(r).url,
                                    OutboundHeaders(r.header, whitelist, getter(r).extraHeaders), r.body))
    ensures t(e.sent.value).Failure? ==>
              && (w.status.None? ==> e.writer.status == Some(StatusInternalServerError))
              && e.writer.body == w.body + t(e.sent.value).error + "\n"
    ensures t(e.sent.value).Success? ==>
              var resp := t(e.sent.value).value;
              && (w.status.None? ==> e.writer.status == Some(resp.status))
              && e.writer.body == w.body + resp.body
  {
    var opts := getter(r);
    var out := Outbound(r.verb, opts.url, OutboundHeaders(r.header, whitelist, opts.extraHeaders), r.body);
    match t(out)
    case Failure(err) => Exchange(Error(w, err, StatusInternalServerError), Some(out))
    case Success(resp) =>
      var w1 := WithHeader(w, ResponseHeaders(resp.header, w.header));
      Exchange(Write(WriteHeader(w1, resp.status), resp.body), Some(out))
  }

  /** On a fresh writer the client gets the first value of every upstream header
      outside the hop-by-hop set, and no other header. */
  lemma ForwardedResponseHeaders(getter: UrlGetter, whitelist: seq<string>, r: Request, t: Transport)
    requires t(Forward(getter, whitelist, r, Fresh, t).sent.value).Success?
    ensures var resp := t(Forward(getter, whitelist, r, Fresh, t).sent.value).value;
            var h := Forward(getter, whitelist, r, Fresh, t).writer.header;
            && (forall k :: k in h <==> k in resp.header && k !in HopByHop)
            && (forall k :: k in h ==> h[k] == [Get(resp.header, k)])
  {
    var resp := t(Forward(getter, whitelist, r, Fresh, t).sent.value).value;
    var h := Forward(getter, whitelist, r, Fresh, t).writer.header;
    assert h == ResponseHeaders(resp.header, map[]);
  }
}

=== FILE: http.dfy ===
/**
 * The slice of Go's `net/http` the proxy is written against: header maps, the
 * inbound and outbound request, the upstream response, and the response writer.
 *
 * Header keys are taken to be in canonical form already; the canonicalisation
 * `http.Header` performs on every access is not modelled.
 */
module Http {
  import opened Wrappers

  /** `http.Header`: each key carries an ordered list of values. */
  type Headers = map<string, seq<string>>

  const StatusBadRequest := 400
  const StatusNotFound := 404
  const StatusInternalServerError := 500

  /** The hop-by-hop headers of section 13.5.1 of RFC 2616. */
  const HopByHop: set<string> := {
    "Connection", "Keep-Alive", "Proxy-Authenticate", "Proxy-Authorization",
    "Te", "Trailers", "Transfer-Encoding", "Upgrade"
  }

  /** The values stored under `k`; an absent key reads as the empty list, as in Go. */
  function Values(h: Headers, k: string): seq<string> {
    if k in h then h[k] else []
  }

  /** `Header.Add`: append one value to the key. */
  function Add(h: Headers, k: string, v: string): (r: Headers)
    ensures Values(r, k) == Values(h, k) + [v]
    ensures forall j :: j != k ==> Values(r, j) == Values(h, j)
    ensures r.Keys == h.Keys + {k}
  {
    h[k := Values(h, k) + [v]]
  }

  /** `for _, v := range vs { h.Add(k, v) }`: appends every value in order;
      an empty list leaves the map as it was (the key is not created). */
  function AddEach(h: Headers, k: string, vs: seq<string>): (r: Headers)
    ensures Values(r, k) == Values(h, k) + vs
    ensures forall j :: j != k ==> Values(r, j) == Values(h, j)
    ensures r.Keys == if vs == [] then h.Keys else h.Keys + {k}
    decreases |vs|
  {
    if vs == [] then h
    else
      var r := AddEach(Add(h, k, vs[0]), k, vs[1..]);
      assert [vs[0]] + vs[1..] == vs;
      r
  }

  /** `Header.Get`: the first value of the key, or "" when it has none. */
  function Get(h: Headers, k: string): (r: string)
    ensures Values(h, k) != [] ==> r == Values(h, k)[0]
    ensures Values(h, k) == [] ==> r == ""
  {
    if k in h && h[k] != [] then h[k][0] else ""
  }

  /**
   * The header copy loop the proxy writes three times:
   * `for key, parts := range src { if keep(key) { for _, v := range parts { dest.Add(key, v) } } }`.
   * Stated here as the map it produces, independent of the order in which
   * Go visits the keys of `src`; `CopyLoop` shows the loop computes it.
   */
  function CopyWhere(src: Headers, dest: Headers, keep: string -> bool): (r: Headers)
    ensures forall k :: Values(r, k) == Values(dest, k) + (if keep(k) then Values(src, k) else [])
    ensures forall k :: k in r <==> k in dest || (keep(k) && Values(src, k) != [])
  {
    var added := set k | k in src.Keys && keep(k) && src[k] != [];
    map k | k in dest.Keys + added :: Values(dest, k) + (if keep(k) then Values(src, k) else [])
  }

  /** Key `k` is as the copy loop leaves it: destination values, followed by the
      kept source values once the loop has passed `k` (that is, `k` is not in `todo`). */
  ghost predicate CopiedKey(out: Headers, src: Headers, dest: Headers, keep: string -> bool, todo: set<string>, k: string) {
    var passed := keep(k) && k !in todo;
    && Values(out, k) == Values(dest, k) + (if passed then Values(src, k) else [])
    && (k in out <==> k in dest || (passed && Values(src, k) != []))
  }

  /** Every key is as the copy loop leaves it. */
  ghost predicate CopiedExcept(out: Headers, src: Headers, dest: Headers, keep: string -> bool, todo: set<string>) {
    forall k :: CopiedKey(out, src, dest, keep, todo, k)
  }

  /** One turn of the copy loop keeps `CopiedExcept` with the visited key removed from `todo`. */
  lemma CopyStep(out: Headers, src: Headers, dest: Headers, keep: string -> bool, todo: set<string>, key: string)
    requires key in todo && key in src
    requires CopiedExcept(out, src, dest, keep, todo)
    ensures CopiedExcept(if keep(key) then AddEach(out, key, src[key]) else out, src, dest, keep, todo - {key})
  {
    var rest := todo - {key};
    var next := if keep(key) then AddEach(out, key, src[key]) else out;
    forall k
      ensures CopiedKey(next, src, dest, keep, rest, k)
    {
      assert CopiedKey(out, src, dest, keep, todo, k);
      if k != key {
        assert Values(next, k) == Values(out, k);
        assert k in next <==> k in out;
      } else {
        assert Values(src, k) == src[key];
      }
    }
  }

  /** Once every key has been visited, the loop's map is exactly `CopyWhere`. */
  lemma CopyDone(out: Headers, src: Headers, dest: Headers, keep: string -> bool)
    requires CopiedExcept(out, src, dest, keep, {})
    ensures out == CopyWhere(src, dest, keep)
  {
    var expected := CopyWhere(src, dest, keep);
    forall k
      ensures k in out <==> k in expected
    {
      assert CopiedKey(out, src, dest, keep, {}, k);
    }
    assert out.Keys == expected.Keys;
    forall k | k in out
      ensures out[k] == expected[k]
    {
      assert CopiedKey(out, src, dest, keep, {}, k);
      assert Values(out, k) == Values(expected, k);
    }
  }

  /** The copy loop itself, visiting the keys of `src` in an arbitrary order:
      whatever order Go's map iteration picks, the result is `CopyWhere`. */
  method CopyLoop(src: Headers, dest: Headers, keep: string -> bool) returns (out: Headers)
    ensures out == CopyWhere(src, dest, keep)
  {
    out := dest;
    var todo := src.Keys;
    while todo != {}
      invariant todo <= src.Keys
      invariant CopiedExcept(out, src, dest, keep, todo)
      decreases todo
    {
      var key :| key in todo;
      CopyStep(out, src, dest, keep, todo, key);
      if keep(key) {
        out := AddEach(out, key, src[key]);
      }
      todo := todo - {key};
    }
    CopyDone(out, src, dest, keep);
  }

  /** An inbound request as the handler sees it. `requestURI` is
      `r.URL.RequestURI()`: the path together with any query string. */
  datatype Request = Request(
    verb: string,
    requestURI: string,
    header: Headers,
    remoteAddr: string,
    body: string)

  /** The request the proxy builds with `http.NewRequest` and hands to its client. */
  datatype Outbound = Outbound(verb: string, uri: string, header: Headers, body: string)

  /** What the upstream server answered. */
  datatype Upstream = Upstream(status: int, header: Headers, body: string)

  /** `client.Do`: the network round trip, an oracle that answers or fails with an error text. */
  type Transport = Outbound -> Result<Upstream, string>

  /**
   * What the client receives through the `http.ResponseWriter`. The first status
   * written is the one sent; headers changed after that are not sent; every
   * later write appends to the body.
   */
  datatype Writer = Writer(status: Option<int>, header: Headers, body: string)

  /** A writer nothing has been written to yet. */
  const Fresh := Writer(None, map[], "")

  /** `w.WriteHeader(code)`: only the first call has an effect. */
  function WriteHeader(w: Writer, code: int): (r: Writer)
    ensures r.status == if w.status.None? then Some(code) else w.status
    ensures r.header == w.header && r.body == w.body
  {
    if w.status.None? then w.(status := Some(code)) else w
  }

  /** `w.Write(data)`: appends to the body, sending status 200 first if no status was written. */
  function Write(w: Writer, data: string): (r: Writer)
    ensures r.status == if w.status.None? then Some(200) else w.status
    ensures r.header == w.header && r.body == w.body + data
  {
    w.(status := if w.status.None? then Some(200) else w.status, body := w.body + data)
  }

  /** A change to `w.Header()`, which reaches the client only before the status is written. */
  function WithHeader(w: Writer, h: Headers): (r: Writer)
    ensures r.header == if w.status.None? then h else w.header
    ensures r.status == w.status && r.body == w.body
  {
    if w.status.None? then w.(header := h) else w
  }

  /** `http.Error(w, msg, code)`: write the status, then the message and a newline. */
  function Error(w: Writer, msg: string, code: int): (r: Writer)
    ensures r.status == if w.status.None? then Some(code) else w.status
    ensures r.body == w.body + msg + "\n"
    ensures r.header == w.header
  {
    Write(WriteHeader(w, code), msg + "\n")
  }

  /** The result of handling one request: what the client got, and the
      outbound request handed to the transport, if one was. */
  datatype Exchange = Exchange(writer: Writer, sent: Option<Outbound>)
}

=== FILE: overlord.dfy ===
/**
 * `overlord.go`: a dispatcher over many proxies. Global validators run first,
 * then the request goes to the proxy with the longest mount path that prefixes
 * its request URI, and otherwise a 404 is written.
 */
module Overlord {
  import opened Wrappers
  import opened Text
  import opened Http
  import opened ProxyHandler

  /** The `Overlord` struct: the declared proxies, the global validators in
      registration order, and the built handlers keyed by mount path. */
  datatype Overlord = Overlord(proxies: seq<Proxy>, validators: seq<Validator>, cache: map<string, Built>)

  /** The global validators, run in order: the first rejection is the verdict. */
  function RunValidators(vs: seq<Validator>, r: Request): (v: Verdict)
    ensures v.Accept? <==> forall i :: 0 <= i < |vs| ==> vs[i](r).Accept?
    ensures v.Reject? ==> exists i :: 0 <= i < |vs| && vs[i](r) == v && forall j :: 0 <= j < i ==> vs[j](r).Accept?
  {
    if vs == [] then Accept
    else
      match vs[0](r)
      case Reject(m, c) => Reject(m, c)
      case Accept =>
        var v := RunValidators(vs[1..], r);
        ShiftVerdict(vs, r, v);
        v
  }

  /** The first-rejection property of the tail carries over to the whole list when its head accepts. */
  lemma ShiftVerdict(vs: seq<Validator>, r: Request, v: Verdict)
    requires |vs| > 0 && vs[0](r).Accept?
    requires v.Accept? <==> forall i :: 0 <= i < |vs[1..]| ==> vs[1..][i](r).Accept?
    requires v.Reject? ==> exists i :: 0 <= i < |vs[1..]| && vs[1..][i](r) == v && forall j :: 0 <= j < i ==> vs[1..][j](r).Accept?
    ensures v.Accept? <==> forall i :: 0 <= i < |vs| ==> vs[i](r).Accept?
    ensures v.Reject? ==> exists i :: 0 <= i < |vs| && vs[i](r) == v && forall j :: 0 <= j < i ==> vs[j](r).Accept?
  {
    if v.Reject? {
      var i :| 0 <= i < |vs[1..]| && vs[1..][i](r) == v && forall j :: 0 <= j < i ==> vs[1..][j](r).Accept?;
      assert vs[i + 1](r) == v;
      forall j | 0 <= j < i + 1
        ensures vs[j](r).Accept?
      {
        if j > 0 {
          assert vs[j] == vs[1..][j - 1];
        }
      }
    } else {
      forall i | 0 <= i < |vs|
        ensures vs[i](r).Accept?
      {
        if i > 0 {
          assert vs[i] == vs[1..][i - 1];
        }
      }
    }
  }

  /** The longest key of length at most `n` that prefixes `uri`, "" when none does. */
  function LongestUpTo(keys: set<string>, uri: string, n: nat): (r: string)
    requires n <= |uri|
    ensures r == "" || (r in keys && r <= uri && |r| <= n)
    ensures forall k :: k in keys && k <= uri && |k| <= n ==> |k| <= |r|
    decreases n
  {
    if n == 0 then ""
    else if uri[..n] in keys then uri[..n]
    else
      var r := LongestUpTo(keys, uri, n - 1);
      assert forall k :: k <= uri && |k| == n ==> k == uri[..n];
      r
  }

  /** The mount path a request is dispatched to: the longest non-empty key that
      prefixes the request URI (query string included), "" when there is none. */
  function LongestMatch(keys: set<string>, uri: string): (r: string)
    ensures r == "" || (r in keys && r <= uri)
    ensures forall k :: k in keys && k <= uri ==> |k| <= |r|
  {
    LongestUpTo(keys, uri, |uri|)
  }

  /** The longest matching key is unique: two distinct keys of one length cannot
      both prefix the URI, so whatever satisfies the maximality property is `LongestMatch`. */
  lemma MatchIsUnique(keys: set<string>, uri: string, s: string)
    requires s != "" && s in keys && s <= uri
    requires forall k :: k in keys && k <= uri ==> |k| <= |s|
    ensures s == LongestMatch(keys, uri)
  {
    var best := LongestMatch(keys, uri);
    assert |best| == |s|;
    PrefixesOfEqualLength(best, s, uri);
  }

  /** The selection loop of `ServeHTTP`, visiting the cache keys in an arbitrary
      order: whatever order Go's map iteration picks, it selects `LongestMatch`. */
  method SelectRoute(cache: map<string, Built>, uri: string) returns (route: string)
    ensures route == LongestMatch(cache.Keys, uri)
  {
    route := "";
    var todo := cache.Keys;
    while todo != {}
      invariant todo <= cache.Keys
      invariant route == "" || (route in cache && route <= uri)
      invariant forall k :: k in cache && k !in todo && k <= uri ==> |k| <= |route|
      decreases todo
    {
      var key :| key in todo;
      IndexZeroIffPrefix(uri, key);
      if IndexOf(uri, key) == Some(0) {
        if |key| > |route| {
          route := key;
        }
      }
      todo := todo - {key};
    }
    if route != "" {
      MatchIsUnique(cache.Keys, uri, route);
    }
  }

  /** Some proxy declared with path `k` builds. */
  ghost predicate Declares(ps: seq<Proxy>, k: string) {
    exists i :: 0 <= i < |ps| && ps[i].path == k && Build(ps[i]).Success?
  }

  /** `Declares` for a list extended at its end. */
  lemma DeclaresSnoc(ps: seq<Proxy>, k: string)
    requires ps != []
    ensures Declares(ps, k) <==> Declares(ps[..|ps| - 1], k) || (ps[|ps| - 1].path == k && Build(ps[|ps| - 1]).Success?)
  {
    var init := ps[..|ps| - 1];
    if Declares(ps, k) {
      var i :| 0 <= i < |ps| && ps[i].path == k && Build(ps[i]).Success?;
      if i < |ps| - 1 {
        assert init[i] == ps[i];
      }
    }
    if Declares(init, k) {
      var i :| 0 <= i < |init| && init[i].path == k && Build(init[i]).Success?;
      assert ps[i] == init[i];
    }
  }

  /** `buildProxyCache`: the proxies are built in order and each one that builds is
      stored under its path; entries for other paths are kept. */
  function CacheFrom(ps: seq<Proxy>, cache: map<string, Built>): (c: map<string, Built>)
    ensures forall k :: k in c <==> k in cache || Declares(ps, k)
    ensures forall k :: k in cache && !Declares(ps, k) ==> c[k] == cache[k]
    ensures "" !in cache ==> "" !in c
    decreases |ps|
  {
    if ps == [] then cache
    else
      var last := ps[|ps| - 1];
      var prev := CacheFrom(ps[..|ps| - 1], cache);
      var c := match Build(last)
               case Failure(_) => prev
               case Success(b) => prev[last.path := b];
      assert forall k :: Declares(ps, k) <==> Declares(ps[..|ps| - 1], k) || (last.path == k && Build(last).Success?) by {
        forall k { DeclaresSnoc(ps, k); }
      }
      c
  }

  /** A later proxy with the same path replaces an earlier one: the entry for a
      proxy's path is that proxy's handler when no later proxy with the path builds. */
  lemma {:induction false} CacheLastWins(ps: seq<Proxy>, cache: map<string, Built>, i: nat)
    requires i < |ps| && Build(ps[i]).Success?
    requires forall j :: i < j < |ps| && ps[j].path == ps[i].path ==> Build(ps[j]).Failure?
    ensures ps[i].path in CacheFrom(ps, cache) && CacheFrom(ps, cache)[ps[i].path] == Build(ps[i]).value
    decreases |ps|
  {
    assert Declares(ps, ps[i].path);
    var init := ps[..|ps| - 1];
    if i < |ps| - 1 {
      assert init[i] == ps[i];
      forall j | i < j < |init| && init[j].path == init[i].path
        ensures Build(init[j]).Failure?
      {
        assert init[j] == ps[j];
      }
      CacheLastWins(init, cache, i);
    }
  }

  /** The dispatcher with its cache built from its proxies. */
  function BuildProxyCache(o: Overlord): (r: Overlord)
    ensures r.proxies == o.proxies && r.validators == o.validators
    ensures forall k :: k in r.cache <==> k in o.cache || Declares(o.proxies, k)
  {
    o.(cache := CacheFrom(o.proxies, o.cache))
  }

  /** A cache built from nothing holds exactly the proxies that build, under their
      non-empty paths, and each entry is the last proxy declared with that path that builds. */
  lemma CacheFromEmpty(ps: seq<Proxy>, k: string)
    ensures k in CacheFrom(ps, map[]) <==> exists i :: 0 <= i < |ps| && ps[i].path == k && Build(ps[i]).Success?
    ensures k in CacheFrom(ps, map[]) ==>
              && k != ""
              && exists i :: 0 <= i < |ps| && ps[i].path == k && Build(ps[i]).Success?
                             && CacheFrom(ps, map[])[k] == Build(ps[i]).value
                             && forall j :: i < j < |ps| && ps[j].path == k ==> Build(ps[j]).Failure?
  {
    var c := CacheFrom(ps, map[]);
    if k in c {
      var i :| 0 <= i < |ps| && ps[i].path == k && Build(ps[i]).Success?;
      while exists j :: i < j < |ps| && ps[j].path == k && Build(ps[j]).Success?
        invariant 0 <= i < |ps| && ps[i].path == k && Build(ps[i]).Success?
        decreases |ps| - i
      {
        var next :| i < next < |ps| && ps[next].path == k && Build(ps[next]).Success?;
        i := next;
      }
      CacheLastWins(ps, map[], i);
    }
  }

  /**
   * `ServeHTTP` as written: after delegating to the selected proxy it does not
   * return, so "Not Found" is also written; the delegate's status, written first, stands.
   */
  function Serve(o: Overlord, r: Request, w: Writer, t: Transport): (e: Exchange)
    ensures RunValidators(o.validators, r).Reject? ==>
              && e.sent.None?
              && e.writer.body == w.body + RunValidators(o.validators, r).message + "\n"
              && (w.status.None? ==> e.writer.status == Some(RunValidators(o.validators, r).code))
    ensures RunValidators(o.validators, r).Accept? && LongestMatch(o.cache.Keys, r.requestURI) == "" ==>
              && e.sent.None?
              && e.writer.body == w.body + "Not Found\n"
              && (w.status.None? ==> e.writer.status == Some(StatusNotFound))
    ensures RunValidators(o.validators, r).Accept? && LongestMatch(o.cache.Keys, r.requestURI) != "" ==>
              var d := Handle(o.cache[LongestMatch(o.cache.Keys, r.requestURI)], r, w, t);
              && e.sent == d.sent
              && e.writer.status == d.writer.status
              && e.writer.body == d.writer.body + "Not Found\n"
  {
    match RunValidators(o.validators, r)
    case Reject(m, c) => Exchange(Error(w, m, c), None)
    case Accept =>
      var route := LongestMatch(o.cache.Keys, r.requestURI);
      FallThrough(if route != "" then Handle(o.cache[route], r, w, t) else Exchange(w, None))
  }

  /** The `http.Error(w, "Not Found", ...)` that ends `ServeHTTP`, reached with or
      without a delegation: it appends to the body and keeps any status already written. */
  function FallThrough(d: Exchange): (e: Exchange)
    ensures e.sent == d.sent
    ensures e.writer.status == if d.writer.status.None? then Some(StatusNotFound) else d.writer.status
    ensures e.writer.body == d.writer.body + "Not Found\n"
  {
    Exchange(Error(d.writer, "Not Found", StatusNotFound), d.sent)
  }

  /** `ServeHTTP` with the missing `return` after delegation put back, dispatching
      to the corrected proxy handler. */
  function ServeCorrected(o: Overlord, r: Request, w: Writer, t: Transport): (e: Exchange)
    ensures RunValidators(o.validators, r).Reject? ==>
              && e.sent.None?
              && e.writer.body == w.body + RunValidators(o.validators, r).message + "\n"
              && (w.status.None? ==> e.writer.status == Some(RunValidators(o.validators, r).code))
    ensures RunValidators(o.validators, r).Accept? && LongestMatch(o.cache.Keys, r.requestURI) == "" ==>
              && e.sent.None?
              && e.writer.body == w.body + "Not Found\n"
              && (w.status.None? ==> e.writer.status == Some(StatusNotFound))
    ensures RunValidators(o.validators, r).Accept? && LongestMatch(o.cache.Keys, r.requestURI) != "" ==>
              var b := o.cache[LongestMatch(o.cache.Keys, r.requestURI)];
              && e.sent == SentAt(StageOf(b, r, t))
              && (w.status.None? ==> e.writer.status == Some(StatusOf(StageOf(b, r, t))))
              && e.writer.body == BodyAfter(w.body, StageOf(b, r, t))
  {
    match RunValidators(o.validators, r)
    case Reject(m, c) => Exchange(Error(w, m, c), None)
    case Accept =>
      var route := LongestMatch(o.cache.Keys, r.requestURI);
      if route != "" then HandleCorrected(o.cache[route], r, w, t)
      else Exchange(Error(w, "Not Found", StatusNotFound), None)
  }

  /** After a delegation the dispatcher as written still appends "Not Found" to the
      body the client receives, where the corrected one leaves the delegate's response alone. */
  lemma DelegationAppendsNotFound(o: Overlord, r: Request, t: Transport)
    requires RunValidators(o.validators, r).Accept?
    requires LongestMatch(o.cache.Keys, r.requestURI) != ""
    requires Validation(o.cache[LongestMatch(o.cache.Keys, r.requestURI)].config, r).Accept?
    ensures Serve(o, r, Fresh, t).writer.body == ServeCorrected(o, r, Fresh, t).writer.body + "Not Found\n"
    ensures Serve(o, r, Fresh, t).writer.status == ServeCorrected(o, r, Fresh, t).writer.status
  {
  }

  /** The most specific route wins: `/api/v2/` is chosen over `/api/` for `/api/v2/x`. */
  lemma MostSpecificRouteWins()
    ensures LongestMatch({"/api/", "/api/v2/"}, "/api/v2/x") == "/api/v2/"
  {
    var keys: set<string> := {"/api/", "/api/v2/"};
    assert "/api/v2/" <= "/api/v2/x";
    MatchIsUnique(keys, "/api/v2/x", "/api/v2/");
  }
}

=== FILE: proxy.dfy ===
/**
 * `proxy.go`: the `Proxy` configuration, its build-time validation, the router
 * synthesised from `TargetHost`, the request handler it builds, and `Apply`.
 */
module ProxyHandler {
  import opened Wrappers
  import opened Text
  import opened Http

  /** The `(error, int)` a validation hook returns: nil error, or an error text and a status. */
  datatype Verdict = Accept | Reject(message: string, code: int)

  /** `ValidateRequest`, and each of the dispatcher's global validators. */
  type Validator = Request -> Verdict

  /** `PreRequest` sees the finished outbound request and may change it (the
      example programs set an auth header on it) or veto it with a status. */
  datatype PreOutcome = Proceed(outbound: Outbound) | Veto(message: string, code: int)

  type PreRequestHook = (Request, Outbound) -> PreOutcome

  /** `Router`: the upstream URI for a request, or an error text. */
  type Router = Request -> Result<string, string>

  /** The `Proxy` struct; Go's nil slices and funcs are `None`. */
  datatype Proxy = Proxy(
    path: string,
    headerWhitelist: Option<seq<string>>,
    preRequest: Option<PreRequestHook>,
    validateRequest: Option<Validator>,
    router: Option<Router>,
    targetHost: string,
    replacementPath: string,
    useXForwardedFor: bool)

  /** The `hopByHopHeaders` map built inside `BuildProxy`. */
  const HopByHopHeaders: map<string, bool> := map[
    "Connection" := true, "Keep-Alive" := true, "Proxy-Authenticate" := true,
    "Proxy-Authorization" := true, "Te" := true, "Trailers" := true,
    "Transfer-Encoding" := true, "Upgrade" := true
  ]

  /** `hopByHopHeaders[key]`: a Go map lookup, false for a missing key. */
  predicate IsHopByHop(k: string) {
    k in HopByHopHeaders && HopByHopHeaders[k]
  }

  /** The map in `BuildProxy` names exactly the hop-by-hop headers of RFC 2616. */
  lemma HopByHopMapAgrees(k: string)
    ensures IsHopByHop(k) <==> k in HopByHop
  {
  }

  /** `validateProxy`: a router (given or synthesised from `TargetHost`) and a mount path are both required. */
  function ValidateProxy(p: Proxy): (r: Outcome<string>)
    ensures r.Fail? <==> p.path == "" || (p.router.None? && p.targetHost == "")
    ensures p.router.None? && p.targetHost == "" ==> r == Fail("Router or TargetHost not set")
    ensures (p.router.Some? || p.targetHost != "") && p.path == "" ==> r == Fail("Path not set")
  {
    if p.router.None? && p.targetHost == "" then Fail("Router or TargetHost not set")
    else if p.path == "" then Fail("Path not set")
    else Pass
  }

  /** The request URI the synthesised router appends to `TargetHost`. */
  function RewriteUri(p: Proxy, uri: string): string {
    if p.replacementPath != "" then ReplaceFirst(uri, p.path, p.replacementPath) else uri
  }

  /** The router `BuildProxy` installs when `TargetHost` is set. */
  function TargetRouter(p: Proxy): Router {
    (r: Request) => Success(p.targetHost + RewriteUri(p, r.requestURI))
  }

  /** A handler closure as `BuildProxy` returns it: the configuration, the whitelist
      set derived from `HeaderWhitelist`, and the router in force. */
  datatype Built = Built(config: Proxy, whitelist: set<string>, router: Router)

  /** The whitelist map `BuildProxy` fills from `HeaderWhitelist` (empty for nil). */
  function WhitelistSet(list: Option<seq<string>>): set<string> {
    match list
    case None => {}
    case Some(names) => set i | 0 <= i < |names| :: names[i]
  }

  /** `BuildProxy`: a handler for a valid configuration, the validation error otherwise. */
  function Build(p: Proxy): (r: Result<Built, string>)
    ensures r.Success? <==> p.path != "" && (p.router.Some? || p.targetHost != "")
    ensures r.Failure? ==> Fail(r.error) == ValidateProxy(p)
    ensures r.Success? ==> r.value.config == p
    ensures r.Success? ==> forall h :: h in r.value.whitelist <==> p.headerWhitelist.Some? && h in p.headerWhitelist.value
  {
    match ValidateProxy(p)
    case Fail(e) => Failure(e)
    case Pass =>
      var router := if p.targetHost != "" then TargetRouter(p) else p.router.value;
      Success(Built(p, WhitelistSet(p.headerWhitelist), router))
  }

  /** The built router: `TargetHost` plus the (possibly rewritten) request URI when
      `TargetHost` is set, overriding any custom `Router`; the custom `Router` otherwise. */
  lemma BuiltRouter(p: Proxy, req: Request)
    requires Build(p).Success?
    ensures p.targetHost != "" ==>
              Build(p).value.router(req) == Success(p.targetHost + RewriteUri(p, req.requestURI))
    ensures p.targetHost == "" ==> Build(p).value.router(req) == p.router.value(req)
    ensures p.replacementPath == "" ==> RewriteUri(p, req.requestURI) == req.requestURI
  {
  }

  /** With a replacement path, a URI that starts with the mount path has that prefix swapped. */
  lemma RewriteMountPrefix(p: Proxy, uri: string)
    requires p.replacementPath != "" && p.path <= uri
    ensures RewriteUri(p, uri) == p.replacementPath + uri[|p.path|..]
  {
    ReplaceFirstPrefix(uri, p.path, p.replacementPath);
  }

  /** A URI in which the mount path does not occur is forwarded as it is. */
  lemma RewriteWithoutOccurrence(p: Proxy, uri: string)
    requires forall j :: 0 <= j <= |uri| ==> !OccursAt(uri, p.path, j)
    ensures RewriteUri(p, uri) == uri
  {
    ReplaceFirstAbsent(uri, p.path, p.replacementPath);
  }

  /** Whether an inbound request header may be forwarded: never a hop-by-hop one,
      and when a whitelist is configured only a listed one. */
  predicate Forwardable(p: Proxy, k: string) {
    k !in HopByHop && (p.headerWhitelist.None? || k in p.headerWhitelist.value)
  }

  /** The request-header copy of the handler, onto the empty header map of the new request. */
  function RequestHeaders(b: Built, inbound: Headers): Headers {
    if b.config.headerWhitelist.Some? then
      CopyWhere(inbound, map[], k => k in b.whitelist && !IsHopByHop(k))
    else
      CopyWhere(inbound, map[], k => !IsHopByHop(k))
  }

  /** Forwarded request headers: a key is kept, with all its values in order, exactly when it is forwardable. */
  lemma RequestHeaderFilter(p: Proxy, inbound: Headers)
    requires Build(p).Success?
    ensures forall k :: Values(RequestHeaders(Build(p).value, inbound), k) ==
                          if Forwardable(p, k) then Values(inbound, k) else []
    ensures forall k :: k in RequestHeaders(Build(p).value, inbound) <==>
                          Forwardable(p, k) && Values(inbound, k) != []
    ensures p.headerWhitelist == Some([]) ==> RequestHeaders(Build(p).value, inbound) == map[]
  {
    var b := Build(p).value;
    var out := RequestHeaders(b, inbound);
    forall k
      ensures Values(out, k) == if Forwardable(p, k) then Values(inbound, k) else []
    {
      HopByHopMapAgrees(k);
    }
    forall k
      ensures k in out <==> Forwardable(p, k) && Values(inbound, k) != []
    {
      HopByHopMapAgrees(k);
    }
    if p.headerWhitelist == Some([]) {
      assert forall k :: k !in out;
    }
  }

  /** The client address as it goes into the identity header: quoted when it
      contains a colon, as section 6 of RFC 7239 requires of such node values. */
  function ClientIdentity(remoteAddr: string): (r: string)
    ensures ':' in remoteAddr ==> |r| == |remoteAddr| + 2 && r[0] == '"' && r[|r| - 1] == '"' && r[1..|r| - 1] == remoteAddr
    ensures ':' !in remoteAddr ==> r == remoteAddr && ':' !in r
  {
    if ':' in remoteAddr then "\"" + remoteAddr + "\"" else remoteAddr
  }

  /** The header that carries the client identity. */
  function IdentityHeader(useXForwardedFor: bool): string {
    if useXForwardedFor then "X-Forwarded-For" else "Forwarded"
  }

  /** The value added to that header. */
  function IdentityValue(useXForwardedFor: bool, remoteAddr: string): string {
    if useXForwardedFor then ClientIdentity(remoteAddr) else "For=" + ClientIdentity(remoteAddr)
  }

  /** The identity header is appended after any values already forwarded under that name; nothing else changes. */
  function WithClientIdentity(h: Headers, remoteAddr: string, useXForwardedFor: bool): (r: Headers)
    ensures useXForwardedFor ==>
              Values(r, "X-Forwarded-For") == Values(h, "X-Forwarded-For") + [ClientIdentity(remoteAddr)]
    ensures !useXForwardedFor ==>
              Values(r, "Forwarded") == Values(h, "Forwarded") + ["For=" + ClientIdentity(remoteAddr)]
    ensures forall k :: k != IdentityHeader(useXForwardedFor) ==> Values(r, k) == Values(h, k)
  {
    Add(h, IdentityHeader(useXForwardedFor), IdentityValue(useXForwardedFor, remoteAddr))
  }

  /** The outbound request before `PreRequest`: same method and body, routed URI, filtered headers plus identity. */
  function BuildOutbound(b: Built, r: Request, uri: string): Outbound {
    Outbound(r.verb, uri, WithClientIdentity(RequestHeaders(b, r.header), r.remoteAddr, b.config.useXForwardedFor), r.body)
  }

  /** Apart from the identity header, the built outbound request carries exactly
      the forwardable inbound headers, each with all its values in order. */
  lemma OutboundForwardsFiltered(p: Proxy, b: Built, r: Request, uri: string, k: string)
    requires Build(p) == Success(b)
    requires k != IdentityHeader(p.useXForwardedFor)
    ensures Values(BuildOutbound(b, r, uri).header, k) == if Forwardable(p, k) then Values(r.header, k) else []
  {
    RequestHeaderFilter(p, r.header);
  }

  /** The identity value comes last under its header, after any forwardable inbound values. */
  lemma OutboundIdentityLast(p: Proxy, b: Built, r: Request, uri: string)
    requires Build(p) == Success(b)
    ensures var name := IdentityHeader(p.useXForwardedFor);
            Values(BuildOutbound(b, r, uri).header, name) ==
              (if Forwardable(p, name) then Values(r.header, name) else []) + [IdentityValue(p.useXForwardedFor, r.remoteAddr)]
  {
    RequestHeaderFilter(p, r.header);
  }

  /** No hop-by-hop header is present on the built outbound request. */
  lemma OutboundWithoutHopByHop(p: Proxy, b: Built, r: Request, uri: string, k: string)
    requires Build(p) == Success(b)
    requires k in HopByHop
    ensures k !in BuildOutbound(b, r, uri).header
  {
    RequestHeaderFilter(p, r.header);
    assert !Forwardable(p, k);
    assert k !in RequestHeaders(b, r.header);
    assert k != IdentityHeader(p.useXForwardedFor);
  }

  /** The verdict of `ValidateRequest`, accepting when none is set. */
  function Validation(p: Proxy, r: Request): Verdict {
    match p.validateRequest
    case None => Accept
    case Some(v) => v(r)
  }

  /** The verdict of `PreRequest`, proceeding unchanged when none is set. */
  function PreRequest(p: Proxy, r: Request, out: Outbound): PreOutcome {
    match p.preRequest
    case None => Proceed(out)
    case Some(hook) => hook(r, out)
  }

  /** Response headers: every upstream key outside the hop-by-hop set, all values, no whitelist. */
  function ResponseHeaders(upstream: Headers, current: Headers): (r: Headers)
    ensures forall k :: k !in HopByHop ==> Values(r, k) == Values(current, k) + Values(upstream, k)
    ensures forall k :: k in HopByHop ==> Values(r, k) == Values(current, k)
    ensures forall k :: k in r <==> k in current || (k !in HopByHop && Values(upstream, k) != [])
  {
    var r := CopyWhere(upstream, current, k => !IsHopByHop(k));
    assert forall k :: IsHopByHop(k) <==> k in HopByHop;
    r
  }

  /** Relaying the upstream answer: headers, then its status, then its body. */
  function Relay(w: Writer, resp: Upstream): (r: Writer)
    ensures r.status == if w.status.None? then Some(resp.status) else w.status
    ensures r.body == w.body + resp.body
  {
    Write(WriteHeader(WithHeader(w, ResponseHeaders(resp.header, w.header)), resp.status), resp.body)
  }

  /**
   * The stage at which a request handled by a proxy is settled, in the order the
   * handler runs them: validation, routing, the pre-request veto, the transport,
   * and otherwise the relayed upstream answer.
   */
  datatype Stage =
    | Invalid(message: string, code: int)
    | Unroutable(error: string)
    | Vetoed(message: string, code: int)
    | Unreachable(outbound: Outbound, error: string)
    | Relayed(outbound: Outbound, response: Upstream)

  function StageOf(b: Built, r: Request, t: Transport): Stage {
    match Validation(b.config, r)
    case Reject(m, c) => Invalid(m, c)
    case Accept => RoutedStage(b, r, t)
  }

  /** The stage reached by the steps after validation. */
  function RoutedStage(b: Built, r: Request, t: Transport): Stage {
    match b.router(r)
    case Failure(e) => Unroutable(e)
    case Success(uri) => VettedStage(b.config, r, BuildOutbound(b, r, uri), t)
  }

  /** The stage reached from the pre-request hook on, given the built outbound request. */
  function VettedStage(p: Proxy, r: Request, built: Outbound, t: Transport): Stage {
    match PreRequest(p, r, built)
    case Veto(m, c) => Vetoed(m, c)
    case Proceed(out) => SentStage(out, t)
  }

  /** The stage reached once `out` is handed to the transport. */
  function SentStage(out: Outbound, t: Transport): Stage {
    match t(out)
    case Failure(e) => Unreachable(out, e)
    case Success(resp) => Relayed(out, resp)
  }

  /** The status the client is meant to get at each stage. */
  function StatusOf(s: Stage): int {
    match s
    case Invalid(_, c) => c
    case Unroutable(_) => StatusBadRequest
    case Vetoed(_, c) => c
    case Unreachable(_, _) => StatusInternalServerError
    case Relayed(_, resp) => resp.status
  }

  /** The body the client is meant to get at each stage, after what was written before:
      the error text and a newline for every error, the upstream body when relayed. */
  function BodyAfter(prior: string, s: Stage): string {
    match s
    case Invalid(m, _) => prior + m + "\n"
    case Unroutable(err) => prior + err + "\n"
    case Vetoed(m, _) => prior + m + "\n"
    case Unreachable(_, err) => prior + err + "\n"
    case Relayed(_, resp) => prior + resp.body
  }

  /** The outbound request handed to the transport at each stage, if any. */
  function SentAt(s: Stage): Option<Outbound> {
    match s
    case Unreachable(out, _) => Some(out)
    case Relayed(out, _) => Some(out)
    case _ => None
  }

  /**
   * The handler `BuildProxy` returns, as written: a rejected `ValidateRequest`
   * writes its error but does not return, so routing, the pre-request hook and
   * the upstream call still happen after it.
   */
  function Handle(b: Built, r: Request, w: Writer, t: Transport): (e: Exchange)
    ensures e.writer.status.Some?
    ensures w.status.None? ==> e.writer.status == Some(StatusOf(StageOf(b, r, t)))
    ensures !StageOf(b, r, t).Invalid? ==> e.sent == SentAt(StageOf(b, r, t))
    ensures e.sent == SentAt(RoutedStage(b, r, t))
    ensures StageOf(b, r, t).Invalid? ==> w.body + StageOf(b, r, t).message + "\n" <= e.writer.body
    ensures !StageOf(b, r, t).Invalid? ==> e.writer.body == BodyAfter(w.body, StageOf(b, r, t))
  {
    var w1 := match Validation(b.config, r)
              case Accept => w
              case Reject(m, c) => Error(w, m, c);
    Routed(b, r, w1, t)
  }

  /** The handler from routing on: a router error answers 400, a veto its own
      code, a transport error 500, and otherwise the upstream answer is relayed.
      What was written before stands in front of whatever this writes. */
  function Routed(b: Built, r: Request, w: Writer, t: Transport): (e: Exchange)
    ensures e.writer.status == if w.status.None? then Some(StatusOf(RoutedStage(b, r, t))) else w.status
    ensures e.sent == SentAt(RoutedStage(b, r, t))
    ensures w.body <= e.writer.body
    ensures e.writer.body == BodyAfter(w.body, RoutedStage(b, r, t))
  {
    match b.router(r)
    case Failure(err) => Exchange(Error(w, err, StatusBadRequest), None)
    case Success(uri) => Vetted(b.config, r, BuildOutbound(b, r, uri), w, t)
  }

  /** The handler from the pre-request hook on: a veto answers with its own code. */
  function Vetted(p: Proxy, r: Request, built: Outbound, w: Writer, t: Transport): (e: Exchange)
    ensures e.writer.status == if w.status.None? then Some(StatusOf(VettedStage(p, r, built, t))) else w.status
    ensures e.sent == SentAt(VettedStage(p, r, built, t))
    ensures w.body <= e.writer.body
    ensures e.writer.body == BodyAfter(w.body, VettedStage(p, r, built, t))
  {
    match PreRequest(p, r, built)
    case Veto(m, c) => Exchange(Error(w, m, c), None)
    case Proceed(out) => Sent(out, w, t)
  }

  /** The handler once `out` is handed to the transport: a transport error answers
      500, otherwise the upstream answer is relayed. */
  function Sent(out: Outbound, w: Writer, t: Transport): (e: Exchange)
    ensures e.writer.status == if w.status.None? then Some(StatusOf(SentStage(out, t))) else w.status
    ensures e.sent == Some(out)
    ensures w.body <= e.writer.body
    ensures e.writer.body == BodyAfter(w.body, SentStage(out, t))
  {
    match t(out)
    case Failure(err) => Exchange(Error(w, err, StatusInternalServerError), Some(out))
    case Success(resp) => Exchange(Relay(w, resp), Some(out))
  }

  /** The handler with the missing `return` after a rejected validation put back. */
  function HandleCorrected(b: Built, r: Request, w: Writer, t: Transport): (e: Exchange)
    ensures e.writer.status.Some?
    ensures w.status.None? ==> e.writer.status == Some(StatusOf(StageOf(b, r, t)))
    ensures e.sent == SentAt(StageOf(b, r, t))
    ensures e.writer.body == BodyAfter(w.body, StageOf(b, r, t))
  {
    match Validation(b.config, r)
    case Reject(m, c) => Exchange(Error(w, m, c), None)
    case Accept => Handle(b, r, w, t)
  }

  /** A request whose validation fails is still routed and sent upstream by the
      handler as written, and the upstream body follows the validation error. */
  lemma ValidationRejectStillForwards(b: Built, r: Request, t: Transport)
    requires Validation(b.config, r).Reject?
    requires RoutedStage(b, r, t).Relayed?
    ensures Handle(b, r, Fresh, t).sent == Some(RoutedStage(b, r, t).outbound)
    ensures Handle(b, r, Fresh, t).writer.status == Some(Validation(b.config, r).code)
    ensures Handle(b, r, Fresh, t).writer.body == Validation(b.config, r).message + "\n" + RoutedStage(b, r, t).response.body
    ensures HandleCorrected(b, r, Fresh, t).sent == None
  {
    var v := Validation(b.config, r);
    var w1 := Error(Fresh, v.message, v.code);
    assert w1.status == Some(v.code) && w1.body == v.message + "\n";
    var e := Routed(b, r, w1, t);
    assert e.writer.body == w1.body + RoutedStage(b, r, t).response.body;
    assert Handle(b, r, Fresh, t) == e;
  }

  /** On a fresh writer the fall-through changes nothing the client's status line
      shows: the first status written, the validation code, stands. */
  lemma FallThroughKeepsStatus(b: Built, r: Request, t: Transport)
    ensures Handle(b, r, Fresh, t).writer.status == HandleCorrected(b, r, Fresh, t).writer.status
  {
  }

  /** A relayed answer reaches a fresh writer with its status and body, and with
      every upstream header except the hop-by-hop ones. */
  lemma RelayedResponse(b: Built, r: Request, t: Transport)
    requires StageOf(b, r, t).Relayed?
    ensures var resp := StageOf(b, r, t).response;
            var w := Handle(b, r, Fresh, t).writer;
            && w.status == Some(resp.status)
            && w.body == resp.body
            && (forall k :: Values(w.header, k) == if k in HopByHop then [] else Values(resp.header, k))
  {
    var resp := StageOf(b, r, t).response;
    var w := Handle(b, r, Fresh, t).writer;
    var uri := b.router(r).value;
    var out := StageOf(b, r, t).outbound;
    assert Handle(b, r, Fresh, t) == Routed(b, r, Fresh, t);
    assert Routed(b, r, Fresh, t) == Vetted(b.config, r, BuildOutbound(b, r, uri), Fresh, t);
    assert Vetted(b.config, r, BuildOutbound(b, r, uri), Fresh, t) == Sent(out, Fresh, t);
    assert w == Relay(Fresh, resp);
    assert w.header == ResponseHeaders(resp.header, map[]);
  }

  /** Without a `PreRequest` hook, the request sent upstream carries no hop-by-hop
      header, whatever the inbound request and the whitelist contain. */
  lemma SentWithoutHopByHop(p: Proxy, b: Built, r: Request, t: Transport)
    requires Build(p) == Success(b) && p.preRequest.None?
    requires Handle(b, r, Fresh, t).sent.Some?
    ensures forall k :: k in HopByHop ==> k !in Handle(b, r, Fresh, t).sent.value.header
  {
    var uri := b.router(r).value;
    assert Handle(b, r, Fresh, t).sent == SentAt(RoutedStage(b, r, t));
    assert Handle(b, r, Fresh, t).sent.value == BuildOutbound(b, r, uri);
    forall k | k in HopByHop
      ensures k !in Handle(b, r, Fresh, t).sent.value.header
    {
      OutboundWithoutHopByHop(p, b, r, uri, k);
    }
  }

  /** `Apply`: every non-nil hook or whitelist of `from` overwrites the receiver's,
      `UseXForwardedFor` is always taken from `from`, the routing fields are untouched. */
  function Apply(p: Proxy, from: Proxy): (r: Proxy)
    ensures from.headerWhitelist.Some? ==> r.headerWhitelist == from.headerWhitelist
    ensures from.headerWhitelist.None? ==> r.headerWhitelist == p.headerWhitelist
    ensures from.preRequest.Some? ==> r.preRequest == from.preRequest
    ensures from.preRequest.None? ==> r.preRequest == p.preRequest
    ensures from.validateRequest.Some? ==> r.validateRequest == from.validateRequest
    ensures from.validateRequest.None? ==> r.validateRequest == p.validateRequest
    ensures r.useXForwardedFor == from.useXForwardedFor
    ensures r.path == p.path && r.router == p.router
    ensures r.targetHost == p.targetHost && r.replacementPath == p.replacementPath
  {
    p.(headerWhitelist := if from.headerWhitelist.Some? then from.headerWhitelist else p.headerWhitelist,
       preRequest := if from.preRequest.Some? then from.preRequest else p.preRequest,
       validateRequest := if from.validateRequest.Some? then from.validateRequest else p.validateRequest,
       useXForwardedFor := from.useXForwardedFor)
  }

  /** Applying the same settings twice is the same as applying them once. */
  lemma ApplyIdempotent(p: Proxy, from: Proxy)
    ensures Apply(Apply(p, from), from) == Apply(p, from)
  {
  }

  /** `Apply` never changes whether a configuration builds. */
  lemma ApplyKeepsValidity(p: Proxy, from: Proxy)
    ensures ValidateProxy(Apply(p, from)) == ValidateProxy(p)
  {
  }
}

=== FILE: scenarios.dfy ===
/**
 * Facts that tie the three copies of the hop-by-hop list together, and the
 * concrete behaviour the repository's tests and examples describe, stated on the model.
 */
module Scenarios {
  import opened Wrappers
  import opened Text
  import opened Http
  import HeaderUtils
  import opened ProxyHandler
  import Forwarder

  /** `isHeaderBad`, the `hopByHopHeaders` map of `BuildProxy` and the `badHeaders`
      map of `Forwarder` all name the same eight headers. */
  lemma HopByHopCopiesAgree(k: string)
    ensures HeaderUtils.IsHeaderBad(k) <==> IsHopByHop(k)
    ensures IsHopByHop(k) <==> Forwarder.IsBad(k)
    ensures HopByHopHeaders.Keys == Forwarder.BadHeaders.Keys == HopByHop
  {
  }

  /** A proxy with only its routing fields set. */
  function Plain(path: string, targetHost: string, replacementPath: string): Proxy {
    Proxy(path, None, None, None, None, targetHost, replacementPath, false)
  }

  /** The build checks of the validation test: an empty proxy and one with only a
      target host are refused, one with a target host and a path is accepted. */
  lemma BuildValidationCases()
    ensures Build(Plain("", "", "")) == Failure("Router or TargetHost not set")
    ensures Build(Plain("", "whatever", "")) == Failure("Path not set")
    ensures Build(Plain("a path", "whatever", "")).Success?
  {
  }

  /** A request with the given URI and remote address, no headers and no body. */
  function GetRequest(uri: string, remoteAddr: string): Request {
    Request("GET", uri, map[], remoteAddr, "")
  }

  /** A target host alone forwards the whole request URI, query string included. */
  lemma TargetHostKeepsUri()
    ensures Build(Plain("/api/", "http://U", "")).value.router(GetRequest("/api/widgets?x=1", "10.0.0.5"))
            == Success("http://U/api/widgets?x=1")
  {
    var p := Plain("/api/", "http://U", "");
    var req := GetRequest("/api/widgets?x=1", "10.0.0.5");
    assert "http://U" + "/api/widgets?x=1" == "http://U/api/widgets?x=1";
    BuiltRouter(p, req);
  }

  /** A replacement path swaps the mount path for itself. */
  lemma ReplacementRewritesMount()
    ensures Build(Plain("/api/payments/", "http://U", "/api/")).value.router(GetRequest("/api/payments/42", "10.0.0.5"))
            == Success("http://U/api/42")
  {
    var p := Plain("/api/payments/", "http://U", "/api/");
    BuiltRouter(p, GetRequest("/api/payments/42", "10.0.0.5"));
    assert p.path <= "/api/payments/42";
    RewriteMountPrefix(p, "/api/payments/42");
    assert "/api/payments/42"[|p.path|..] == "42";
    assert "http://U" + ("/api/" + "42") == "http://U/api/42";
  }

  /** The `Forwarded` value quotes an address that carries a port. */
  lemma ForwardedQuotesPort()
    ensures IdentityValue(false, "10.0.0.5:443") == "For=\"10.0.0.5:443\""
  {
    var a := "10.0.0.5:443";
    assert a[8] == ':';
    assert ClientIdentity(a) == "\"" + a + "\"";
    assert "For=" + ("\"" + a + "\"") == "For=\"10.0.0.5:443\"";
  }

  /** The `Forwarded` value leaves a bare IPv4 address unquoted. */
  lemma ForwardedKeepsBareAddress()
    ensures IdentityValue(false, "10.0.0.5") == "For=10.0.0.5"
  {
    var a := "10.0.0.5";
    assert ':' !in a by {
      forall i | 0 <= i < |a| ensures a[i] != ':' { }
    }
    assert ClientIdentity(a) == a;
    assert "For=" + a == "For=10.0.0.5";
  }

  /** The `X-Forwarded-For` value quotes an IPv6 address with a port as well. */
  lemma ForwardedForQuotesIPv6()
    ensures IdentityValue(true, "[::1]:80") == "\"[::1]:80\""
  {
    var a := "[::1]:80";
    assert a[1] == ':';
    assert ClientIdentity(a) == "\"" + a + "\"";
  }

  /** A transport that fails every request, as for the unsupported scheme of the client-error test. */
  function FailingTransport(): Transport {
    (o: Outbound) => Failure("unsupported protocol scheme")
  }

  /** A router failure answers 400 and sends nothing. */
  lemma RouterErrorIsBadRequest(t: Transport)
    ensures var b := Build(Proxy("/api/", None, None, None, Some((r: Request) => Failure("Bad route")), "", "", false)).value;
            var e := Handle(b, GetRequest("/api/", "192.0.2.1:1234"), Fresh, t);
            e.writer.status == Some(400) && e.sent.None? && e.writer.body == "Bad route\n"
  {
  }

  /** A transport failure answers 500 after the request was handed over. */
  lemma TransportErrorIsServerError()
    ensures var b := Build(Plain("/api/", "hate://go", "")).value;
            var e := Handle(b, GetRequest("/api/", "192.0.2.1:1234"), Fresh, FailingTransport());
            e.writer.status == Some(500) && e.sent.Some?
  {
  }

  /** A pre-request veto answers with the hook's status, 503 in the test, and sends nothing. */
  lemma PreRequestVetoKeepsStatus(t: Transport)
    ensures var base := Proxy("", None, Some((i: Request, o: Outbound) => Veto("testing", 503)), None, None, "", "", true);
            var b := Build(Apply(Plain("/api/payments/", "notreal", "/api/"), base)).value;
            var e := Handle(b, GetRequest("/api/payments/", "192.0.2.1:1234"), Fresh, t);
            e.writer.status == Some(503) && e.sent.None?
  {
  }

  /** A rejected validation answers with its status, 503 in the test, whatever follows it. */
  lemma ValidationRejectKeepsStatus(t: Transport)
    ensures var base := Proxy("", None, None, Some((r: Request) => Reject("Server Updating", 503)), None, "", "", false);
            var b := Build(Apply(Plain("/api/", "doesn't matter", ""), base)).value;
            Handle(b, GetRequest("/api/", "192.0.2.1:1234"), Fresh, t).writer.status == Some(503)
  {
  }

  /** The whitelist test: with `Client` whitelisted, `Client` is forwarded while
      `Upgrade` (hop-by-hop) and `Too` (not listed) are dropped. */
  lemma WhitelistForwardsOnlyListed()
    ensures var p := Apply(Plain("/api/", "http://U", ""), Proxy("", Some(["Client"]), None, None, None, "", "", false));
            var inbound: Headers := map["Client" := ["my client"], "Upgrade" := ["1"], "Too" := ["Three"]];
            RequestHeaders(Build(p).value, inbound) == map["Client" := ["my client"]]
  {
    var p := Apply(Plain("/api/", "http://U", ""), Proxy("", Some(["Client"]), None, None, None, "", "", false));
    var inbound: Headers := map["Client" := ["my client"], "Upgrade" := ["1"], "Too" := ["Three"]];
    var out := RequestHeaders(Build(p).value, inbound);
    RequestHeaderFilter(p, inbound);
    forall k | k in out
      ensures k == "Client"
    {
      assert k in p.headerWhitelist.value;
    }
    assert Forwardable(p, "Client");
    assert out.Keys == {"Client"};
  }
}

=== FILE: text.dfy ===
/**
 * The two string operations of Go's `strings` package that the proxy relies on:
 * `strings.Index` (first occurrence of a substring) and `strings.Replace` with a
 * count of one (substitute the first occurrence only).
 */
module Text {
  import opened Wrappers

  /** `sub` occurs in `s` starting at index `i`. */
  predicate OccursAt(s: string, sub: string, i: nat) {
    i + |sub| <= |s| && s[i..i + |sub|] == sub
  }

  /** First occurrence of `sub` in `s` at or after `from` (the scan behind `strings.Index`). */
  function IndexFrom(s: string, sub: string, from: nat): (r: Option<nat>)
    requires from <= |s|
    ensures r.Some? ==> from <= r.value && OccursAt(s, sub, r.value)
    ensures r.Some? ==> forall j :: from <= j < r.value ==> !OccursAt(s, sub, j)
    ensures r.None? ==> forall j :: from <= j <= |s| ==> !OccursAt(s, sub, j)
    decreases |s| - from
  {
    if OccursAt(s, sub, from) then Some(from)
    else if from == |s| then None
    else IndexFrom(s, sub, from + 1)
  }

  /** `strings.Index(s, sub)`: the least index at which `sub` occurs, `None` for Go's -1. */
  function IndexOf(s: string, sub: string): (r: Option<nat>)
    ensures r.Some? ==> OccursAt(s, sub, r.value)
    ensures r.Some? ==> forall j :: 0 <= j < r.value ==> !OccursAt(s, sub, j)
    ensures r.None? ==> forall j :: 0 <= j <= |s| ==> !OccursAt(s, sub, j)
  {
    IndexFrom(s, sub, 0)
  }

  /** `strings.Index(s, p) == 0` holds exactly when `p` is a prefix of `s`. */
  lemma IndexZeroIffPrefix(s: string, p: string)
    ensures IndexOf(s, p) == Some(0) <==> p <= s
  {
    if p <= s {
      assert s[0..|p|] == p;
      assert OccursAt(s, p, 0);
    }
    if IndexOf(s, p) == Some(0) {
      assert s[0..|p|] == p;
    }
  }

  /** `strings.Replace(s, pat, repl, 1)`: replace the first occurrence of `pat`, if any. */
  function ReplaceFirst(s: string, pat: string, repl: string): (r: string)
    ensures IndexOf(s, pat).None? ==> r == s
    ensures IndexOf(s, pat).Some? ==>
              var i := IndexOf(s, pat).value;
              && |r| == |s| - |pat| + |repl|
              && r[..i] == s[..i]
              && r[i..i + |repl|] == repl
              && r[i + |repl|..] == s[i + |pat|..]
  {
    match IndexOf(s, pat)
    case None => s
    case Some(i) => s[..i] + repl + s[i + |pat|..]
  }

  /** A string in which `pat` does not occur is left as it is. */
  lemma ReplaceFirstAbsent(s: string, pat: string, repl: string)
    requires forall j :: 0 <= j <= |s| ==> !OccursAt(s, pat, j)
    ensures ReplaceFirst(s, pat, repl) == s
  {
  }

  /** When `pat` is a prefix of `s`, the replacement rewrites exactly that prefix. */
  lemma ReplaceFirstPrefix(s: string, pat: string, repl: string)
    requires pat <= s
    ensures ReplaceFirst(s, pat, repl) == repl + s[|pat|..]
  {
    IndexZeroIffPrefix(s, pat);
    var r := ReplaceFirst(s, pat, repl);
    assert r[..0] == [];
    assert r == r[..|repl|] + r[|repl|..];
  }

  /** Two prefixes of one string that have the same length are the same string. */
  lemma PrefixesOfEqualLength(a: string, b: string, s: string)
    requires a <= s && b <= s && |a| == |b|
    ensures a == b
  {
    assert a == s[..|a|];
    assert b == s[..|b|];
  }
}

=== FILE: utils.dfy ===
/** The header helpers of `proxy/utils.go`. */
module HeaderUtils {
  import opened Http

  /** The list `isHeaderBad` scans, in the order it is written. */
  const BadHeaders: seq<string> := [
    "Connection", "Keep-Alive", "Proxy-Authenticate", "Proxy-Authorization",
    "Te", "Trailers", "Transfer-Encoding", "Upgrade"
  ]

  /** The scan of `BadHeaders` from position `i` on, returning at the first equal entry. */
  function ScanFrom(header: string, i: nat): (r: bool)
    requires i <= |BadHeaders|
    ensures r <==> exists j :: i <= j < |BadHeaders| && BadHeaders[j] == header
    decreases |BadHeaders| - i
  {
    if i == |BadHeaders| then false
    else if BadHeaders[i] == header then true
    else ScanFrom(header, i + 1)
  }

  /** `isHeaderBad`: a case-sensitive comparison against the eight hop-by-hop names. */
  function IsHeaderBad(header: string): (r: bool)
    ensures r <==> header in HopByHop
  {
    var r := ScanFrom(header, 0);
    assert header in HopByHop <==> header in BadHeaders;
    r
  }

  /** The comparison is on the exact spelling: a lower-case name is not recognised. */
  lemma IsHeaderBadCaseSensitive()
    ensures IsHeaderBad("Connection") && !IsHeaderBad("connection")
    ensures IsHeaderBad("Te") && !IsHeaderBad("TE")
  {
  }

  /** `CopyHeaders(src, dest)`: append every value of every non-hop-by-hop key of
      `src` to `dest`; all other keys of `dest` are left alone. */
  function CopyHeaders(src: Headers, dest: Headers): (r: Headers)
    ensures forall k :: k !in HopByHop ==> Values(r, k) == Values(dest, k) + Values(src, k)
    ensures forall k :: k in HopByHop || k !in src ==> Values(r, k) == Values(dest, k)
    ensures forall k :: k in r <==> k in dest || (k !in HopByHop && Values(src, k) != [])
  {
    CopyWhere(src, dest, k => !IsHeaderBad(k))
  }

  /** `copyWhitelist` has an empty body: the destination is what it was. */
  function CopyWhitelist(src: Headers, dest: Headers): (r: Headers)
    ensures r == dest
  {
    dest
  }
}

=== FILE: wrappers.dfy ===
/** Failure-carrying result types shared by every module of the model. */
module Wrappers {

  /** A value that may be absent; stands for Go's nil slices and nil funcs. */
  datatype Option<+T> = None | Some(value: T)

  /** The outcome of a Go call returning `(value, error)`. */
  datatype Result<+R, +E> = Success(value: R) | Failure(error: E)

  /** The outcome of a Go call returning only an `error`. */
  datatype Outcome<+E> = Pass | Fail(error: E)
}
